=== FILE: README.md ===
# Clipbook clip list, modelled in Dafny

Clipbook is a browser extension. Its content script (`public/content.js`) lets
the user save the text selected on a page. Its popup (`public/script.js`)
lists, searches, edits, copies and deletes the saved clips. Both share one
list of clip records stored under the key `"clips"`.

This project models that list and the pure logic both scripts run on it:

- deriving a clip's domain from its page URL;
- the content script's de-duplicating upsert, keyed on (text, domain);
- placement of the save button, the trim and non-empty guard on the
  selection, and the click that saves;
- the popup's favicon fallbacks, its relative-age buckets, the
  edit/delete/copy/clear-all actions, and its search filter.

Loading and saving the list are the identity on the in-memory sequence.

Modules, one per component:

- `Wrappers`: the `Option` type.
- `Text`: the JavaScript string operations the scripts use. These are
  ASCII `toLowerCase`/`toUpperCase`, `indexOf`/`includes`, `replace` with a
  string pattern, `trim`, and decimal rendering of a number.
- `ClipStore`: the `Clip` record, `getDomain`, `findIndex` and the upsert.
- `Content`: the content script (button placement, button state, save click).
- `Popup`: the popup script (icons, `formatDate`, list actions, search,
  card numbering).

URL parsing (`new URL(url).hostname`) is a parameter `hostname: string -> Option<string>`.
`None` stands for the constructor throwing. The current time is a parameter
`now`. The page's icon lookup is an opaque `Option<string>`.

## Behaviour worth knowing

- `getDomain` removes the first `"www."` anywhere in the host name, not only a
  leading one (`ClipStore.GetDomainStripsInnerWww`).
- A save that matches an existing (text, domain) replaces the whole record in
  place. This includes its `url`, not only favicon and timestamp.
- When the page declares no icon link, the content script's favicon fallback
  (`public/content.js:69`) parses the page URL, and a URL that does not parse
  makes it throw; the `catch` at `public/content.js:107-109` then abandons the
  save, and `Content.SaveSelection` leaves the list unchanged. The URL passed
  is `currentUrl`, which is `window.location.href` (`public/content.js:3`) and
  always parses, so on a real page this path is not taken: `Page.icon == None`
  over-approximates what the content script can meet.
- The save button is only flipped to the other side of the anchor when it
  would leave the window; it is never clamped (`Content.PositionButton`).

## Model

| member | source | states |
|---|---|---|
| Text.IndexOf | public/script.js:173-174 | `indexOf`/`includes`: the result is the first position where the pattern occurs, no earlier position matches, and None means it occurs nowhere |
| Text.ReplaceFirst | public/content.js:24 | `replace` with a string pattern: with no occurrence the string is unchanged; otherwise only the first occurrence is replaced |
| Text.Trim | public/content.js:131 | `trim`: the result neither starts nor ends with white space, only white space surrounds it in the input, and it is empty exactly when the input is all white space |
| Text.TrimIdempotent | public/content.js:131 | trimming already trimmed text changes nothing |
| Text.Lower | public/script.js:165 | lower-casing keeps the length and leaves no ASCII upper-case letter |
| Text.LowerIdempotent | public/script.js:173-174 | lower-casing an already lower-cased query changes nothing |
| Text.Decimal | public/script.js:64-66 | the `${n}` numeral is non-empty, all digits, and has no leading zero |
| Text.DecimalRoundTrip | public/script.js:64-66 | reading the numeral back gives the number it was rendered from |
| ClipStore.GetDomain | public/content.js:21-28 | the raw URL when it does not parse; else the host name, or, when the host name contains "www.", the host name with its first "www." cut out (four characters shorter) |
| ClipStore.GetDomainStripsLeadingWww | public/script.js:24-31 | host `www.example.com` gives domain `example.com` |
| ClipStore.GetDomainStripsInnerWww | public/content.js:24 | host `shop.www.example.com` gives `shop.example.com`: a non-leading "www." is removed too |
| ClipStore.GetDomainUnparsable | public/content.js:25-27 | an unparsable URL is returned unchanged as the domain |
| ClipStore.FindIndex | public/content.js:81-83 | the index found holds the first clip with equal text and domain; None means no clip has them |
| ClipStore.Upsert | public/content.js:94-98 | the new record is in the result; the length grows by at most one; every record is the new one or an old one |
| ClipStore.UpsertFresh | public/content.js:96-97 | with no clip sharing (text, domain), the result is the new record followed by the old list, one longer |
| ClipStore.UpsertReplaces | public/content.js:94-95 | with a first match at i, the length is unchanged, position i holds the whole new record (url, favicon, timestamp included), and every other position is unchanged |
| ClipStore.UpsertKeepsUniqueKeys | public/content.js:79-98 | unique (text, domain) keys stay unique, and exactly one record then carries the new key: the new record |
| ClipStore.UpsertIdempotent | public/content.js:81-98 | upserting the same record twice gives the same list as upserting it once |
| ClipStore.UpsertAll | public/content.js:74-110 | a run of saves grows the list by at most one per save and always keeps the last record saved |
| ClipStore.UpsertAllDistinct | public/content.js:79-98 | saving N records with pairwise different keys, none already stored, adds exactly N records and keeps the keys unique |
| Content.PositionButton | public/content.js:31-51 | the scroll position is the window's offset unless that is 0, then the document's; left is 10 right of the anchor exactly when the 180-wide button fits the window's right edge, else its right edge is 10 left of the anchor; top puts the 40-high button 10 above the anchor exactly when that is not above the scrolled top, else 10 below it |
| Content.PlacementStaysInView | public/content.js:44-51 | an unflipped button ends inside the window's right edge; the top is never above the scrolled top unless the anchor is more than 10 above it |
| Content.HandleSelection | public/content.js:130-146 | the button is shown exactly when the selection is not all white space; it then holds the trimmed text at the computed place; otherwise it is hidden, with position and held text unchanged |
| Content.InitialButtonInv | public/content.js:15 | the new button is hidden and holds no text, so it satisfies the button invariant |
| Content.HandleSelectionKeepsInv | public/content.js:131-141 | a selection event keeps the invariant: held text is trimmed, and a shown button holds non-empty text |
| Content.SaveSelection | public/content.js:74-110 | a save is the (text, domain) upsert of the record (text, page URL, domain of that URL, icon, now): that record is in the result, the list grows by at most one, unique keys stay unique, and records not already stored carry the saved text, URL and time; a throwing icon lookup leaves the list unchanged |
| Content.SavedDomainMatchesUrl | public/content.js:80-88 | every record a save adds has the domain derived from its own URL |
| Content.ClickSave | public/content.js:163-173 | with no held text a click changes nothing; otherwise it saves the held text and hides the button |
| Content.ClickSaveKeepsInv | public/content.js:167-171 | a click keeps the button invariant |
| Content.ClickSavesTrimmedText | public/content.js:167-169 | from a button satisfying the invariant, a click only adds records whose text is non-empty and trimmed |
| Content.Run | public/content.js:150-173 | over any sequence of selections and clicks, the list grows by at most one record per event and never shrinks, and unique (text, domain) keys stay unique |
| Content.RunSavesOnlyTrimmedText | public/content.js:126-173 | over any sequence of selections and clicks, the button invariant holds, and every clip the run adds has non-empty trimmed text (clips already stored, which the popup's edit may have changed, are not constrained) |
| Popup.FaviconServiceUrl | public/script.js:43 | the favicon-service address starts with the service prefix, ends with `&sz=64`, and has the host in between |
| Popup.FaviconServiceRoundTrip | public/script.js:43 | the host can be read back from the favicon-service address built for it |
| Popup.FaviconUrl | public/script.js:34-47 | a non-empty stored favicon is used; otherwise there is an address exactly when the URL parses, and that address asks the service about the URL's host |
| Popup.FaviconLetter | public/script.js:50-52 | empty for an empty domain, else one character, not lower-case, that is the domain's first letter up to case |
| Popup.CardIcon | public/script.js:85-89 | a card shows an image exactly when there is a favicon address; the letter fallback is always the domain's letter |
| Popup.FormatDate | public/script.js:55-69 | Just now exactly when under a minute has passed, future times included; Minutes n (1..59), Hours n (1..23) and Days n (1..6) on their ranges, with n units ≤ elapsed < n+1 units; Absolute from 7 days on |
| Popup.AgeLabel | public/script.js:63-66 | there is a label exactly when the age is relative; under a minute it is `Just now`; otherwise it ends in `m ago`, `h ago` or `d ago` for the unit, and the digits before that read back as the count, with no leading zero |
| Popup.AgeLabelInjective | public/script.js:63-66 | two relative ages with the same label are the same age |
| Popup.FortyFiveMinutesAgo | public/script.js:59-64 | 45 minutes ago reads `45m ago` |
| Popup.TenDaysAgo | public/script.js:61-68 | 10 days ago gets the absolute date |
| Popup.Copy | public/script.js:123-132 | the copied text is that of the record at the index; the modelled failure happens exactly when the index is past the end |
| Popup.Edit | public/script.js:139-144 | fails exactly when the index is past the end; otherwise only that record's text changes: its url, domain, favicon and timestamp and all other records stay |
| Popup.EditCanDuplicateKey | public/script.js:142 | an edit can turn a list with unique (text, domain) keys into one with a duplicate |
| Popup.Delete | public/script.js:151-152 | an index in range removes exactly that record: one shorter, earlier records in place, later ones shifted down, the multiset loses that record; past the end nothing changes |
| Popup.DeleteKeepsUniqueKeys | public/script.js:152 | deleting keeps unique (text, domain) keys unique |
| Popup.ClearAll | public/script.js:186-187 | clear-all leaves an empty list whatever it held |
| Popup.MatchMask | public/script.js:172-175 | the verdict list has one entry per clip, true exactly when that clip's lower-cased domain or text contains the query |
| Popup.SelectAtPositions | public/script.js:172-175 | the filtered list is as long as its list of positions, and its k-th element is the element at the k-th position |
| Popup.PositionsAscend | public/script.js:172-175 | the kept positions strictly ascend, so the filter keeps list order |
| Popup.PositionsExactly | public/script.js:172-175 | a position is kept exactly when its verdict is true |
| Popup.Search | public/script.js:165-177 | the rendered list is never longer than the full list, and is the full list for an empty query |
| Popup.SearchSelectsExactly | public/script.js:165-177 | the search result is the order-preserving subsequence of exactly the clips whose lower-cased domain or text contains the lower-cased query |
| Popup.SearchIgnoresQueryCase | public/script.js:165 | lower-casing the query first gives the same result |
| Popup.CardIndexInBounds | public/script.js:119-157 | a card number from any rendered list is a valid index of the full list, so copy and edit succeed and delete removes one record |
| Popup.CardIndexDrift | public/script.js:84-177 | with clips a, b and query "b", card 0 shows b, yet delete removes a and keeps b, and copy copies "a" |
| Popup.CardIndexDriftEdit | public/script.js:138-144 | in the same situation, an edit made on card 0 (which shows b) is written into a, and b keeps its old text |
| Popup.NoDriftWithoutQuery | public/script.js:167-169 | with an empty query, card k shows the clip at list position k |
| Popup.CardTarget | public/script.js:92 | the list position found for card k holds exactly the clip shown on card k |
| Popup.DeleteCard | public/script.js:150-155 | deleting through a card removes exactly the clip shown on it |
| Popup.EditCard | public/script.js:138-145 | editing through a card changes only the text of the clip shown on it |
| Popup.CopyCard | public/script.js:122-133 | copying through a card copies the text shown on it |

## Findings

| source | as written | input that shows it | evidently intended | confidence | as-written member | corrected member |
|---|---|---|---|---|---|---|
| public/script.js:84-177 | after a search, `renderClips(filtered)` numbers cards by their position in the filtered list, and the copy, edit and delete handlers index the full `allClips` with that number | clips `[a, b]` and query `"b"`: card 0 shows `b`, but delete removes `a`, copy copies `a`'s text, and an edit of `b` overwrites `a`'s text | each action acts on the clip shown on its card | high (follows directly from the code; not executed) | Popup.CardIndexDrift, Popup.CardIndexDriftEdit | Popup.CardTarget |

`Popup.Copy`, `Popup.Edit` and `Popup.Delete` model the handlers' list
operations as written: they act on an index into the full list. The corrected
card actions `Popup.CopyCard`, `Popup.EditCard` and `Popup.DeleteCard` first
map the card number through `Popup.CardTarget`.

## Left out

- Storage, messaging and clipboard. `chrome.storage.local` get/set,
  `chrome.runtime` messaging and `navigator.clipboard` are asynchronous host
  APIs. Load and save are the identity on the list; a storage failure is not modelled.
- Concurrency. The content script and the popup can race on the stored list
  (read-modify-write, last write wins). There is no locking to model.
- DOM work. Rendering and HTML building (`renderClips`, `attachEventListeners`,
  `createSaveButton`), toasts, `confirm` and `setTimeout` are not modelled. So
  are the 200 ms debounce in `handleSelection`, and hiding the button on
  scroll or on a mouse-down outside it. Only the card icon choice and the card
  numbering of `renderClips` are modelled.
- The `if (!saveButton) return` guard in `positionButton`. The button exists
  before any listener that calls it is registered.
- Favicon discovery (`public/content.js:58-71`). It is an opaque
  `Option<string>` input; None stands for the lookup throwing.
- URL parsing. The WHATWG URL Standard's host parsing is the `hostname` parameter.
- Text.Lower: lower-cases ASCII letters only, not full Unicode `toLowerCase`.
- Popup.FaviconLetter: upper-cases ASCII letters only; a character that
  `toUpperCase` expands to several (such as `ß`) is kept as one character.
  Strings are sequences of code points, not UTF-16 code units, so for a
  domain starting with a character outside the Basic Multilingual Plane the
  model returns that whole character where `charAt(0)` returns a lone
  surrogate.
- Popup.Copy: a rejected `navigator.clipboard.writeText`, which also ends in
  "Failed to copy" (`public/script.js:127-131`), is not modelled; failure
  here is only the index past the end.
- Popup.FormatDate: the locale date string for ages of 7 days or more
  (`toLocaleDateString`) is only the `Absolute` tag, and `AgeLabel` gives None for it.
- Time. `Date.now()` and `new Date()` are the `now` parameter, and timestamps
  are integers of milliseconds. A missing or non-numeric timestamp is not modelled.
- Content.Run: a click is accepted even while the button is hidden
  (`display: none`, which no user can click), so the model admits more event
  runs than the page can produce; the properties proved over runs hold for
  all of them.
- Content.PositionButton: coordinates are integers, whereas
  `getBoundingClientRect` returns doubles.
- Stored favicons. A stored favicon that is `null` or missing reads as the
  empty string, which is falsy just like them.

=== FILE: clip_store.dfy ===
/** The shared clip list kept under the storage key "clips" and the two
    pieces of logic both scripts agree on: deriving a clip's domain from its
    page URL, and the content script's de-duplicating upsert keyed on
    (text, domain). Loading and saving the list are the identity on the
    in-memory sequence. */
module ClipStore {
  import opened Wrappers
  import opened Text

  /** One saved clip. `favicon` is the empty string when no icon was stored
      (the popup treats it as falsy); `timestamp` is in epoch milliseconds. */
  datatype Clip = Clip(text: string, url: string, domain: string, favicon: string, timestamp: int)

  /** `new URL(url).hostname`: None where the URL constructor throws.
      URL parsing itself is not modelled; callers pass the parser in. */
  type HostParser = string -> Option<string>

  /** `getDomain(url)`, identical in public/content.js and public/script.js:
      the hostname with its FIRST occurrence of "www." removed, wherever it
      occurs; the raw URL when it does not parse. */
  function GetDomain(url: string, hostname: HostParser): (domain: string)
    ensures hostname(url).None? ==> domain == url
    ensures hostname(url).Some? ==>
      var h := hostname(url);
      && ((forall j :: !OccursAt(h.value, "www.", j)) ==> domain == h.value)
      && (forall i :: OccursAt(h.value, "www.", i) && (forall j :: 0 <= j < i ==> !OccursAt(h.value, "www.", j)) ==>
            |domain| == |h.value| - 4 && domain == h.value[..i] + h.value[i + 4..])
  {
    match hostname(url)
    case None => url
    case Some(h) => ReplaceFirst(h, "www.", "")
  }

  /** A host name with a leading "www." loses it. */
  lemma GetDomainStripsLeadingWww(url: string, hostname: HostParser)
    requires hostname(url) == Some("www.example.com")
    ensures GetDomain(url, hostname) == "example.com"
  {
    var h := hostname(url).value;
    assert OccursAt(h, "www.", 0);
    ReplaceFirstAt(h, "www.", "", 0);
    assert h[..0] + "" + h[4..] == "example.com";
  }

  /** A "www." inside the host name is removed too, not only a leading one. */
  lemma GetDomainStripsInnerWww(url: string, hostname: HostParser)
    requires hostname(url) == Some("shop.www.example.com")
    ensures GetDomain(url, hostname) == "shop.example.com"
  {
    var h := hostname(url).value;
    InnerWwwFacts(h);
    ReplaceFirstAt(h, "www.", "", 5);
  }

  /** The literal facts about `shop.www.example.com` that the inner "www."
      example needs: the first occurrence is at 5, and cutting it out leaves
      `shop.example.com`. */
  lemma InnerWwwFacts(h: string)
    requires h == "shop.www.example.com"
    ensures OccursAt(h, "www.", 5)
    ensures forall j :: 0 <= j < 5 ==> !OccursAt(h, "www.", j)
    ensures h[..5] + "" + h[9..] == "shop.example.com"
  {
    forall j | 0 <= j < 5 ensures !OccursAt(h, "www.", j) {
      assert h[j..j + 4][0] == h[j] && h[j..j + 4][3] == h[j + 3];
    }
  }

  /** An unparsable URL is its own domain. */
  lemma GetDomainUnparsable(url: string, hostname: HostParser)
    requires hostname(url).None?
    ensures GetDomain(url, hostname) == url
  {
  }

  // ---------------------------------------------------------------------
  // De-duplication key and findIndex
  // ---------------------------------------------------------------------

  /** A clip is identified by its text together with its domain. */
  predicate SameKey(a: Clip, b: Clip) {
    a.text == b.text && a.domain == b.domain
  }

  /** No two clips of the list share (text, domain). */
  predicate UniqueKeys(clips: seq<Clip>) {
    forall i, j :: 0 <= i < j < |clips| ==> !SameKey(clips[i], clips[j])
  }

  /** No clip of the list has the key of `c`. */
  predicate KeyAbsent(clips: seq<Clip>, c: Clip) {
    forall j :: 0 <= j < |clips| ==> !SameKey(clips[j], c)
  }

  /** Position `i` holds the first clip with the key of `c`. */
  predicate FirstWithKey(clips: seq<Clip>, c: Clip, i: int) {
    && 0 <= i < |clips| && SameKey(clips[i], c)
    && forall j :: 0 <= j < i ==> !SameKey(clips[j], c)
  }

  /** `clips.findIndex(clip => clip.text === text && clip.domain === domain)`,
      with None where JavaScript returns -1. */
  function FindIndex(clips: seq<Clip>, c: Clip): (r: Option<nat>)
    ensures r.Some? ==> FirstWithKey(clips, c, r.value)
    ensures r.None? ==> KeyAbsent(clips, c)
  {
    if clips == [] then None
    else if SameKey(clips[0], c) then Some(0)
    else
      match FindIndex(clips[1..], c)
      case None => None
      case Some(k) => Some(k + 1)
  }

  // ---------------------------------------------------------------------
  // Upsert
  // ---------------------------------------------------------------------

  /** The list update in `saveSelection`: the first clip with the same
      (text, domain) is replaced by `c` as a whole, in place; with no such
      clip, `c` is put in front (`unshift`). */
  function Upsert(clips: seq<Clip>, c: Clip): (r: seq<Clip>)
    ensures c in r
    ensures |clips| <= |r| <= |clips| + 1
    ensures forall d :: d in r ==> d == c || d in clips
  {
    match FindIndex(clips, c)
    case Some(i) =>
      assert clips[i := c][i] == c;
      clips[i := c]
    case None => [c] + clips
  }

  /** A clip with a new (text, domain) goes in front of an otherwise unchanged list. */
  lemma UpsertFresh(clips: seq<Clip>, c: Clip)
    requires KeyAbsent(clips, c)
    ensures var r := Upsert(clips, c);
            && r == [c] + clips && |r| == |clips| + 1 && r[0] == c && r[1..] == clips
  {
  }

  /** A clip whose (text, domain) is already present replaces the first such
      record entirely (url, favicon and timestamp included) and nothing else moves. */
  lemma UpsertReplaces(clips: seq<Clip>, c: Clip, i: nat)
    requires FirstWithKey(clips, c, i)
    ensures var r := Upsert(clips, c);
            && |r| == |clips| && r[i] == c
            && forall k :: 0 <= k < |r| && k != i ==> r[k] == clips[k]
  {
  }

  /** Upsert keeps the keys unique and leaves exactly one record with the key
      of `c`: `c` itself. */
  lemma UpsertKeepsUniqueKeys(clips: seq<Clip>, c: Clip)
    requires UniqueKeys(clips)
    ensures UniqueKeys(Upsert(clips, c))
    ensures exists i :: 0 <= i < |Upsert(clips, c)| && Upsert(clips, c)[i] == c
                        && forall k :: 0 <= k < |Upsert(clips, c)| && k != i ==> !SameKey(Upsert(clips, c)[k], c)
  {
  }

  /** Saving the same record twice leaves the list as saving it once. */
  lemma UpsertIdempotent(clips: seq<Clip>, c: Clip)
    ensures Upsert(Upsert(clips, c), c) == Upsert(clips, c)
  {
    var r := Upsert(clips, c);
    match FindIndex(clips, c)
    case None =>
      assert FindIndex(r, c) == Some(0);
    case Some(i) =>
      assert FirstWithKey(r, c, i);
      UpsertReplaces(r, c, i);
      assert r[i := c] == r;
  }

  /** The clips saved one after the other, starting from `clips`. */
  function UpsertAll(clips: seq<Clip>, saves: seq<Clip>): (r: seq<Clip>)
    ensures |clips| <= |r| <= |clips| + |saves|
    ensures saves != [] ==> saves[|saves| - 1] in r
    decreases |saves|
  {
    if saves == [] then clips
    else
      var rest := saves[1..];
      assert rest != [] ==> rest[|rest| - 1] == saves[|saves| - 1];
      assert rest == [] ==> saves[0] == saves[|saves| - 1];
      UpsertAll(Upsert(clips, saves[0]), rest)
  }

  /** Keys of `a` and of `b` are pairwise different. */
  predicate KeysDisjoint(a: seq<Clip>, b: seq<Clip>) {
    forall i, j :: 0 <= i < |a| && 0 <= j < |b| ==> !SameKey(a[i], b[j])
  }

  /** Saving N clips with pairwise different (text, domain) into a list that
      holds none of them adds exactly N records and keeps keys unique. */
  lemma {:induction false} UpsertAllDistinct(clips: seq<Clip>, saves: seq<Clip>)
    requires UniqueKeys(clips) && UniqueKeys(saves) && KeysDisjoint(clips, saves)
    ensures |UpsertAll(clips, saves)| == |clips| + |saves|
    ensures UniqueKeys(UpsertAll(clips, saves))
    decreases |saves|
  {
    if saves != [] {
      var c := saves[0];
      assert KeyAbsent(clips, c);
      var next := Upsert(clips, c);
      assert next == [c] + clips;
      forall i, j | 0 <= i < j < |next| ensures !SameKey(next[i], next[j]) {
        if i == 0 { assert next[j] == clips[j - 1]; }
        else { assert next[i] == clips[i - 1] && next[j] == clips[j - 1]; }
      }
      var rest := saves[1..];
      forall i, j | 0 <= i < |next| && 0 <= j < |rest| ensures !SameKey(next[i], rest[j]) {
        assert rest[j] == saves[j + 1];
        if i == 0 { assert !SameKey(saves[0], saves[j + 1]); }
        else { assert next[i] == clips[i - 1]; }
      }
      UpsertAllDistinct(next, rest);
    }
  }
}

=== FILE: content.dfy ===
/** The content script's page-side logic (public/content.js): where the
    save button goes, when it is shown and what text it holds, and what a
    click on it does to the clip list. Timers, the DOM and the storage and
    messaging APIs are outside the model. */
module Content {
  import opened Wrappers
  import opened Text
  import opened ClipStore

  // ---------------------------------------------------------------------
  // Button placement
  // ---------------------------------------------------------------------

  const ButtonWidth: int := 180
  const ButtonHeight: int := 40
  const Offset: int := 10

  /** `window.pageXOffset || document.documentElement.scrollLeft` (and the
      same for the vertical axis): the window's offset unless it is 0,
      which is falsy, and then the document element's scroll position. */
  function ScrollOffset(windowOffset: int, documentScroll: int): (r: int)
    ensures windowOffset != 0 ==> r == windowOffset
    ensures windowOffset == 0 ==> r == documentScroll
  {
    if windowOffset != 0 then windowOffset else documentScroll
  }

  /** The window state `positionButton` reads, in integer CSS pixels: the
      window's own scroll offsets, the document element's scroll position,
      and the window's inner width. */
  datatype Viewport = Viewport(pageXOffset: int, pageYOffset: int, scrollLeft: int, scrollTop: int, innerWidth: int)
  {
    /** The horizontal scroll position `positionButton` settles on. */
    function ScrollX(): (x: int) { ScrollOffset(pageXOffset, scrollLeft) }

    /** The vertical scroll position `positionButton` settles on. */
    function ScrollY(): (y: int) { ScrollOffset(pageYOffset, scrollTop) }
  }

  /** Page coordinates of the button's top-left corner. */
  datatype Placement = Placement(left: int, top: int)

  /** `positionButton(x, y)` for the selection's right edge `x` and top edge
      `y` in window coordinates. The button goes Offset to the right of the
      anchor and its bottom edge Offset above it; it flips to the left of
      the anchor when it would cross the window's right edge, and below the
      anchor when it would start above the scrolled top. */
  function PositionButton(x: int, y: int, v: Viewport): (p: Placement)
    ensures var ax, ay := x + v.ScrollX(), y + v.ScrollY();
      && (p.left == ax + Offset <==> ax + Offset + ButtonWidth <= v.innerWidth + v.ScrollX())
      && (p.left != ax + Offset ==> p.left + ButtonWidth + Offset == ax)
      && (p.top + ButtonHeight + Offset == ay <==> ay - ButtonHeight - Offset >= v.ScrollY())
      && (p.top + ButtonHeight + Offset != ay ==> p.top == ay + Offset)
  {
    var left := x + v.ScrollX() + Offset;
    var top := y + v.ScrollY() - ButtonHeight - Offset;
    var left' := if left + ButtonWidth > v.innerWidth + v.ScrollX() then x + v.ScrollX() - ButtonWidth - Offset else left;
    var top' := if top < v.ScrollY() then y + v.ScrollY() + Offset else top;
    Placement(left', top')
  }

  /** Whenever the button is not flipped it lies inside the window
      horizontally, and its top edge is never above the scrolled top unless
      the anchor itself is more than Offset above it. */
  lemma PlacementStaysInView(x: int, y: int, v: Viewport)
    ensures var p := PositionButton(x, y, v);
      && (p.left == x + v.ScrollX() + Offset ==> p.left + ButtonWidth <= v.innerWidth + v.ScrollX())
      && (y >= -Offset ==> p.top >= v.ScrollY())
  {
  }

  // ---------------------------------------------------------------------
  // Button state: shown/hidden and the pending selection
  // ---------------------------------------------------------------------

  /** The save button: whether it is displayed, where, and the text held in
      its `data-selected-text` attribute ("" while that is unset). */
  datatype Button = Button(visible: bool, at: Placement, pending: string)

  /** The button as created: hidden, nothing pending. */
  const InitialButton := Button(false, Placement(0, 0), "")

  /** The button only ever holds trimmed text, and is only shown with
      some text to save. */
  predicate ButtonInv(b: Button) {
    Trim(b.pending) == b.pending && (b.visible ==> b.pending != "")
  }

  lemma InitialButtonInv()
    ensures ButtonInv(InitialButton)
  {
  }

  /** The body of the debounced `handleSelection` callback, given the
      selection's text and the right and top edges of its first range.
      A selection that is blank once trimmed hides the button and leaves
      its position and pending text as they were. */
  function HandleSelection(b: Button, selection: string, right: int, top: int, v: Viewport): (b': Button)
    ensures b'.visible <==> !AllSpace(selection)
    ensures b'.visible ==> b'.pending == Trim(selection) && b'.at == PositionButton(right, top, v)
    ensures !b'.visible ==> b'.at == b.at && b'.pending == b.pending
  {
    var text := Trim(selection);
    if |text| > 0 then Button(true, PositionButton(right, top, v), text)
    else b.(visible := false)
  }

  lemma HandleSelectionKeepsInv(b: Button, selection: string, right: int, top: int, v: Viewport)
    requires ButtonInv(b)
    ensures ButtonInv(HandleSelection(b, selection, right, top, v))
  {
  }

  /** What the page offers a save: its URL, and the result of looking up
      its icon (None where that lookup throws, which it does only when the
      page declares no icon link and its URL does not parse; the content
      script passes `window.location.href`, which always parses, so None
      over-approximates what a real page can produce). */
  datatype Page = Page(url: string, icon: Option<string>)

  /** `saveSelection(text)` on the loaded list, at time `now`: the record
      for `text` on this page is upserted. When the icon lookup throws, the
      `catch` swallows it and the list stays as it was. */
  function SaveSelection(clips: seq<Clip>, text: string, page: Page, now: int, hostname: HostParser): (r: seq<Clip>)
    ensures page.icon.None? ==> r == clips
    ensures page.icon.Some? ==>
      r == Upsert(clips, Clip(text, page.url, GetDomain(page.url, hostname), page.icon.value, now))
    ensures page.icon.Some? ==>
      Clip(text, page.url, GetDomain(page.url, hostname), page.icon.value, now) in r
    ensures |clips| <= |r| <= |clips| + 1
    ensures UniqueKeys(clips) ==> UniqueKeys(r)
    ensures forall c :: c in r && c !in clips ==> c.text == text && c.url == page.url && c.timestamp == now
  {
    match page.icon
    case None => clips
    case Some(icon) =>
      var domain := GetDomain(page.url, hostname);
      var c := Clip(text, page.url, domain, icon, now);
      assert UniqueKeys(clips) ==> UniqueKeys(Upsert(clips, c)) by {
        if UniqueKeys(clips) { UpsertKeepsUniqueKeys(clips, c); }
      }
      Upsert(clips, c)
  }

  /** Every record a save adds carries the domain derived from its own URL. */
  lemma SavedDomainMatchesUrl(clips: seq<Clip>, text: string, page: Page, now: int, hostname: HostParser)
    ensures forall c :: c in SaveSelection(clips, text, page, now, hostname) && c !in clips ==>
      c.domain == GetDomain(c.url, hostname)
  {
  }

  /** The click handler of the save button: with pending text, save it,
      then hide the button (the page selection is also cleared, which the
      model does not track); with none, nothing happens. */
  function ClickSave(b: Button, clips: seq<Clip>, page: Page, now: int, hostname: HostParser): (r: (Button, seq<Clip>))
    ensures b.pending == "" ==> r == (b, clips)
    ensures b.pending != "" ==> !r.0.visible && r.0.pending == b.pending
    ensures b.pending != "" ==> r.1 == SaveSelection(clips, b.pending, page, now, hostname)
  {
    if b.pending != "" then (b.(visible := false), SaveSelection(clips, b.pending, page, now, hostname))
    else (b, clips)
  }

  lemma ClickSaveKeepsInv(b: Button, clips: seq<Clip>, page: Page, now: int, hostname: HostParser)
    requires ButtonInv(b)
    ensures ButtonInv(ClickSave(b, clips, page, now, hostname).0)
  {
  }

  /** A click never stores blank or untrimmed text: every record it adds
      has non-empty text with no surrounding white space. */
  lemma ClickSavesTrimmedText(b: Button, clips: seq<Clip>, page: Page, now: int, hostname: HostParser)
    requires ButtonInv(b)
    ensures forall c :: c in ClickSave(b, clips, page, now, hostname).1 && c !in clips ==>
      c.text != "" && Trim(c.text) == c.text
  {
  }

  /** The events the content script reacts to, in the order they happen. */
  datatype Event =
    | Selected(selection: string, right: int, top: int, v: Viewport)
    | Clicked(page: Page, now: int)

  /** Runs a sequence of events from a button state and a clip list. Each
      click saves at most one new record, and the list keeps its (text,
      domain) keys unique. A click is accepted whatever the button's
      visibility, although a hidden button cannot be clicked on a page; the
      model thus admits more runs than the page can produce. */
  function Run(b: Button, clips: seq<Clip>, events: seq<Event>, hostname: HostParser): (r: (Button, seq<Clip>))
    ensures |clips| <= |r.1| <= |clips| + |events|
    ensures UniqueKeys(clips) ==> UniqueKeys(r.1)
    decreases |events|
  {
    if events == [] then (b, clips)
    else
      match events[0]
      case Selected(s, right, top, v) => Run(HandleSelection(b, s, right, top, v), clips, events[1..], hostname)
      case Clicked(page, now) =>
        var (b', clips') := ClickSave(b, clips, page, now, hostname);
        Run(b', clips', events[1..], hostname)
  }

  /** From a button satisfying the invariant, every clip a run of
      selections and clicks adds has non-empty trimmed text. Clips already
      in the list are not constrained: the popup's edit can store any text. */
  lemma {:induction false} RunSavesOnlyTrimmedText(b: Button, clips: seq<Clip>, events: seq<Event>, hostname: HostParser)
    requires ButtonInv(b)
    ensures ButtonInv(Run(b, clips, events, hostname).0)
    ensures forall c :: c in Run(b, clips, events, hostname).1 ==> c in clips || (c.text != "" && Trim(c.text) == c.text)
    decreases |events|
  {
    if events != [] {
      match events[0]
      case Selected(s, right, top, v) =>
        HandleSelectionKeepsInv(b, s, right, top, v);
        RunSavesOnlyTrimmedText(HandleSelection(b, s, right, top, v), clips, events[1..], hostname);
      case Clicked(page, now) =>
        ClickSavesTrimmedText(b, clips, page, now, hostname);
        ClickSaveKeepsInv(b, clips, page, now, hostname);
        var (b', clips') := ClickSave(b, clips, page, now, hostname);
        RunSavesOnlyTrimmedText(b', clips', events[1..], hostname);
    }
  }
}

=== FILE: popup.dfy ===
/** The popup's logic (public/script.js) on its in-memory copy of the clip
    list: the icon shown for a clip, the relative-age label, the edit,
    delete, copy and clear-all actions, and the search filter. Actions name
    a clip by its index in the full list, as the handlers do. */
module Popup {
  import opened Wrappers
  import opened Text
  import opened ClipStore

  // ---------------------------------------------------------------------
  // Icons
  // ---------------------------------------------------------------------

  const FaviconServicePrefix: string := "https://www.google.com/s2/favicons?domain="
  const FaviconServiceSuffix: string := "&sz=64"

  /** The favicon-service address for a host name. */
  function FaviconServiceUrl(host: string): (u: string)
    ensures |u| == |FaviconServicePrefix| + |host| + |FaviconServiceSuffix|
    ensures u[..|FaviconServicePrefix|] == FaviconServicePrefix
    ensures u[|u| - |FaviconServiceSuffix|..] == FaviconServiceSuffix
  {
    FaviconServicePrefix + host + FaviconServiceSuffix
  }

  /** The host name a favicon-service address asks about, if it is one. */
  function FaviconServiceHost(u: string): (host: Option<string>) {
    var p, s := |FaviconServicePrefix|, |FaviconServiceSuffix|;
    if |u| >= p + s && u[..p] == FaviconServicePrefix && u[|u| - s..] == FaviconServiceSuffix
    then Some(u[p..|u| - s])
    else None
  }

  /** The service address names exactly the host it was built from. */
  lemma FaviconServiceRoundTrip(host: string)
    ensures FaviconServiceHost(FaviconServiceUrl(host)) == Some(host)
  {
  }

  /** `getFaviconUrl(clip)`: the stored favicon when it is non-empty;
      otherwise the favicon service asked about the host of the clip's URL;
      None (JavaScript `null`) when that URL does not parse. */
  function FaviconUrl(clip: Clip, hostname: HostParser): (r: Option<string>)
    ensures clip.favicon != "" ==> r == Some(clip.favicon)
    ensures clip.favicon == "" ==> (r.Some? <==> hostname(clip.url).Some?)
    ensures clip.favicon == "" && r.Some? ==> FaviconServiceHost(r.value) == hostname(clip.url)
  {
    if clip.favicon != "" then Some(clip.favicon)
    else
      match hostname(clip.url)
      case None => None
      case Some(h) =>
        FaviconServiceRoundTrip(h);
        Some(FaviconServiceUrl(h))
  }

  /** `getFaviconLetter(domain)`: the first character, upper-cased; the
      empty string for an empty domain (`charAt(0)` is then ""). */
  function FaviconLetter(domain: string): (r: string)
    ensures |r| == if domain == "" then 0 else 1
    ensures r != "" ==> !IsLowerAscii(r[0]) && LowerChar(r[0]) == LowerChar(domain[0])
  {
    if domain == "" then ""
    else
      LowerOfUpper(domain[0]);
      [UpperChar(domain[0])]
  }

  /** The icon of a card: an image with the letter as its hidden fallback
      when there is a favicon address, otherwise the letter alone. */
  datatype Icon = Image(src: string, letter: string) | LetterOnly(letter: string)

  function CardIcon(clip: Clip, hostname: HostParser): (r: Icon)
    ensures r.letter == FaviconLetter(clip.domain)
    ensures r.Image? <==> FaviconUrl(clip, hostname).Some?
    ensures r.Image? ==> r.src == FaviconUrl(clip, hostname).value
  {
    match FaviconUrl(clip, hostname)
    case Some(u) => Image(u, FaviconLetter(clip.domain))
    case None => LetterOnly(FaviconLetter(clip.domain))
  }

  // ---------------------------------------------------------------------
  // Relative age
  // ---------------------------------------------------------------------

  const MsPerMinute: int := 60000
  const MsPerHour: int := 3600000
  const MsPerDay: int := 86400000

  /** The relative-age buckets of `formatDate`; Absolute stands for the
      locale month-and-day string. */
  datatype Age = JustNow | Minutes(n: nat) | Hours(n: nat) | Days(n: nat) | Absolute

  /** `formatDate(timestamp)` with the current time passed in. Every count
      is the floor of the elapsed milliseconds over the unit (Dafny's `/`
      floors for a positive divisor, like `Math.floor`), so a timestamp in
      the future reads "Just now". */
  function FormatDate(timestamp: int, now: int): (a: Age)
    ensures var d := now - timestamp;
      && (a == JustNow <==> d < MsPerMinute)
      && (a.Minutes? <==> MsPerMinute <= d < MsPerHour)
      && (a.Hours? <==> MsPerHour <= d < MsPerDay)
      && (a.Days? <==> MsPerDay <= d < 7 * MsPerDay)
      && (a == Absolute <==> 7 * MsPerDay <= d)
    ensures a.Minutes? ==> 1 <= a.n <= 59 && a.n * MsPerMinute <= now - timestamp < (a.n + 1) * MsPerMinute
    ensures a.Hours? ==> 1 <= a.n <= 23 && a.n * MsPerHour <= now - timestamp < (a.n + 1) * MsPerHour
    ensures a.Days? ==> 1 <= a.n <= 6 && a.n * MsPerDay <= now - timestamp < (a.n + 1) * MsPerDay
  {
    var diff := now - timestamp;
    var mins := diff / MsPerMinute;
    var hours := diff / MsPerHour;
    var days := diff / MsPerDay;
    if mins < 1 then JustNow
    else if mins < 60 then Minutes(mins)
    else if hours < 24 then Hours(hours)
    else if days < 7 then Days(days)
    else Absolute
  }

  /** `l` is a count label: the shortest decimal numeral of `n` (no
      leading zero) followed by `unit`. */
  predicate ReadsBack(l: string, unit: string, n: nat) {
    && |l| > |unit|
    && l[|l| - |unit|..] == unit
    && AllDigits(l[..|l| - |unit|])
    && (|l| - |unit| > 1 ==> l[0] != '0')
    && DecimalValue(l[..|l| - |unit|]) == n
  }

  /** The `${n}<unit>` template of a relative label. */
  function CountLabel(n: nat, unit: string): (l: string)
    ensures ReadsBack(l, unit, n)
  {
    DecimalRoundTrip(n);
    var l := Decimal(n) + unit;
    assert l[..|l| - |unit|] == Decimal(n) && l[|l| - |unit|..] == unit;
    l
  }

  /** The label text; None for Absolute, whose locale date string is not
      modelled. A relative label ends in its unit, and the digits before it
      read back as the count. */
  function AgeLabel(a: Age): (shown: Option<string>)
    ensures shown.None? <==> a.Absolute?
    ensures a.JustNow? ==> shown == Some("Just now")
    ensures a.Minutes? ==> shown.Some? && ReadsBack(shown.value, "m ago", a.n)
    ensures a.Hours? ==> shown.Some? && ReadsBack(shown.value, "h ago", a.n)
    ensures a.Days? ==> shown.Some? && ReadsBack(shown.value, "d ago", a.n)
  {
    match a
    case JustNow => Some("Just now")
    case Minutes(n) => Some(CountLabel(n, "m ago"))
    case Hours(n) => Some(CountLabel(n, "h ago"))
    case Days(n) => Some(CountLabel(n, "d ago"))
    case Absolute => None
  }

  /** Different relative ages never share a label. */
  lemma AgeLabelInjective(a: Age, b: Age)
    requires AgeLabel(a).Some? && AgeLabel(a) == AgeLabel(b)
    ensures a == b
  {
    var l := AgeLabel(a).value;
    if a.JustNow? || b.JustNow? {
      assert l[0] == 'J';
    } else {
      var da, db := Decimal(a.n), Decimal(b.n);
      assert |da| == |db|;
      assert l[|da|] == (if a.Minutes? then 'm' else if a.Hours? then 'h' else 'd');
      assert l[|db|] == (if b.Minutes? then 'm' else if b.Hours? then 'h' else 'd');
      assert da == l[..|da|] == db;
      DecimalInjective(a.n, b.n);
    }
  }

  /** A clip saved 45 minutes ago reads "45m ago". */
  lemma FortyFiveMinutesAgo(timestamp: int)
    ensures FormatDate(timestamp, timestamp + 45 * MsPerMinute) == Minutes(45)
    ensures AgeLabel(Minutes(45)) == Some("45m ago")
  {
    assert DigitChar(4) == '4' && DigitChar(5) == '5';
    assert Decimal(45) == "45";
    assert Decimal(45) + "m ago" == "45m ago";
  }

  /** A clip saved ten days ago gets the absolute date. */
  lemma TenDaysAgo(timestamp: int)
    ensures FormatDate(timestamp, timestamp + 10 * MsPerDay) == Absolute
  {
  }

  // ---------------------------------------------------------------------
  // Actions on the full list
  // ---------------------------------------------------------------------

  /** The copy handler: the text written to the clipboard, or None where
      `allClips[index]` is undefined and the handler reports a failure. */
  function Copy(all: seq<Clip>, i: nat): (r: Option<string>)
    ensures r.Some? <==> i < |all|
    ensures r.Some? ==> r.value == all[i].text
  {
    if i < |all| then Some(all[i].text) else None
  }

  /** The edit handler, `allClips[index].text = …`: only the text of record
      `i` changes; its url, domain, favicon and timestamp stay, and there is
      no (text, domain) re-check. None where the index is out of range and
      the assignment throws, so nothing is saved. */
  function Edit(all: seq<Clip>, i: nat, text: string): (r: Option<seq<Clip>>)
    ensures r.Some? <==> i < |all|
    ensures r.Some? ==> |r.value| == |all|
    ensures r.Some? ==> (r.value[i].text == text && r.value[i].url == all[i].url
      && r.value[i].domain == all[i].domain && r.value[i].favicon == all[i].favicon
      && r.value[i].timestamp == all[i].timestamp)
    ensures r.Some? ==> forall k :: 0 <= k < |all| && k != i ==> r.value[k] == all[k]
  {
    if i < |all| then Some(all[i := all[i].(text := text)]) else None
  }

  /** Editing can break the (text, domain) uniqueness that saving keeps:
      giving one clip the text of another clip from the same domain. */
  lemma EditCanDuplicateKey()
    ensures var all := [Clip("a", "https://x.test/", "x.test", "", 0),
                        Clip("b", "https://x.test/", "x.test", "", 0)];
            UniqueKeys(all) && !UniqueKeys(Edit(all, 1, "a").value)
  {
    var all := [Clip("a", "https://x.test/", "x.test", "", 0),
                Clip("b", "https://x.test/", "x.test", "", 0)];
    var r := Edit(all, 1, "a").value;
    assert SameKey(r[0], r[1]);
  }

  /** The delete handler, `allClips.splice(index, 1)`: the record at `i`
      is removed and the rest keep their order; an index past the end
      removes nothing. */
  function Delete(all: seq<Clip>, i: nat): (r: seq<Clip>)
    ensures i >= |all| ==> r == all
    ensures i < |all| ==> |r| == |all| - 1
    ensures i < |all| ==> forall k :: 0 <= k < i ==> r[k] == all[k]
    ensures i < |all| ==> forall k :: i <= k < |r| ==> r[k] == all[k + 1]
    ensures i < |all| ==> multiset(r) + multiset{all[i]} == multiset(all)
  {
    if i < |all| then
      assert all == all[..i] + [all[i]] + all[i + 1..];
      all[..i] + all[i + 1..]
    else all
  }

  /** Deleting keeps the (text, domain) keys unique. */
  lemma DeleteKeepsUniqueKeys(all: seq<Clip>, i: nat)
    requires UniqueKeys(all)
    ensures UniqueKeys(Delete(all, i))
  {
  }

  /** The clear-all handler, once confirmed: the list is emptied whatever it held. */
  function ClearAll(all: seq<Clip>): (r: seq<Clip>)
    ensures |r| == 0
  {
    []
  }

  // ---------------------------------------------------------------------
  // Search
  // ---------------------------------------------------------------------

  /** The search test for an already lower-cased query: the lower-cased
      domain or the lower-cased text contains it. */
  predicate Matches(c: Clip, q: string) {
    Contains(Lower(c.domain), q) || Contains(Lower(c.text), q)
  }

  /** The verdict of `Matches` for each clip of the list. */
  function MatchMask(all: seq<Clip>, q: string): (m: seq<bool>)
    ensures |m| == |all|
    ensures forall i :: 0 <= i < |all| ==> (m[i] <==> Matches(all[i], q))
  {
    seq(|all|, i requires 0 <= i < |all| => Matches(all[i], q))
  }

  /** `filter` with its verdicts precomputed: the elements whose verdict is
      true, in their order. */
  function Select<T>(s: seq<T>, keep: seq<bool>): (r: seq<T>)
    requires |keep| == |s|
    ensures |r| <= |s|
  {
    if s == [] then []
    else (if keep[0] then [s[0]] else []) + Select(s[1..], keep[1..])
  }

  /** The positions, offset by `base`, of the true verdicts. */
  function Positions(keep: seq<bool>, base: nat): (ps: seq<nat>) {
    if keep == [] then []
    else (if keep[0] then [base] else []) + Positions(keep[1..], base + 1)
  }

  /** There is one position per selected element. */
  lemma {:induction false} SelectLength<T>(s: seq<T>, keep: seq<bool>, base: nat)
    requires |keep| == |s|
    ensures |Positions(keep, base)| == |Select(s, keep)|
  {
    if s != [] {
      SelectLength(s[1..], keep[1..], base + 1);
    }
  }

  /** Every position lies within the sequence, offset by `base`. */
  lemma {:induction false} PositionsInRange(keep: seq<bool>, base: nat)
    ensures forall n :: n in Positions(keep, base) ==> base <= n < base + |keep|
  {
    if keep != [] {
      PositionsInRange(keep[1..], base + 1);
    }
  }

  /** `r` lists elements of `s` at the positions `idx`, offset by `base`. */
  ghost predicate Aligned<T>(s: seq<T>, r: seq<T>, idx: seq<nat>, base: nat) {
    && |idx| == |r|
    && (forall k :: 0 <= k < |idx| ==> base <= idx[k] < base + |s| && r[k] == s[idx[k] - base])
  }

  /** Keeping the head: one more element, at position `base`. */
  lemma AlignedKeep<T>(x: T, s: seq<T>, r: seq<T>, idx: seq<nat>, base: nat)
    requires Aligned(s, r, idx, base + 1)
    ensures Aligned([x] + s, [x] + r, [base] + idx, base)
  {
    var s2, r2, idx2 := [x] + s, [x] + r, [base] + idx;
    forall k | 0 <= k < |idx2| ensures base <= idx2[k] < base + |s2| && r2[k] == s2[idx2[k] - base] {
      if k > 0 {
        assert idx2[k] == idx[k - 1] && r2[k] == r[k - 1];
      }
    }
  }

  /** Dropping the head: the same elements, at the same positions. */
  lemma AlignedSkip<T>(x: T, s: seq<T>, r: seq<T>, idx: seq<nat>, base: nat)
    requires Aligned(s, r, idx, base + 1)
    ensures Aligned([x] + s, r, idx, base)
  {
    var s2 := [x] + s;
    forall k | 0 <= k < |idx| ensures base <= idx[k] < base + |s2| && r[k] == s2[idx[k] - base] {
      assert s2[idx[k] - base] == s[idx[k] - (base + 1)];
    }
  }

  /** The k-th selected element is the element at the k-th position. */
  lemma {:induction false} SelectAtPositions<T>(s: seq<T>, keep: seq<bool>, base: nat)
    requires |keep| == |s|
    ensures var r, idx := Select(s, keep), Positions(keep, base);
      && |idx| == |r|
      && (forall k :: 0 <= k < |idx| ==> base <= idx[k] < base + |s| && r[k] == s[idx[k] - base])
  {
    if s != [] {
      SelectAtPositions(s[1..], keep[1..], base + 1);
      var r', idx' := Select(s[1..], keep[1..]), Positions(keep[1..], base + 1);
      assert Aligned(s[1..], r', idx', base + 1);
      assert s == [s[0]] + s[1..];
      if keep[0] {
        AlignedKeep(s[0], s[1..], r', idx', base);
        assert Select(s, keep) == [s[0]] + r' && Positions(keep, base) == [base] + idx';
      } else {
        AlignedSkip(s[0], s[1..], r', idx', base);
        assert Select(s, keep) == r' && Positions(keep, base) == idx';
      }
      assert Aligned(s, Select(s, keep), Positions(keep, base), base);
    }
  }

  /** The positions strictly ascend: selection keeps the order. */
  predicate Ascending(idx: seq<nat>) {
    forall k, l :: 0 <= k < l < |idx| ==> idx[k] < idx[l]
  }

  lemma {:induction false} PositionsAscend(keep: seq<bool>, base: nat)
    ensures Ascending(Positions(keep, base))
  {
    if keep != [] {
      PositionsAscend(keep[1..], base + 1);
      PositionsInRange(keep[1..], base + 1);
      var idx, idx' := Positions(keep, base), Positions(keep[1..], base + 1);
      if keep[0] {
        assert idx == [base] + idx';
        forall k, l | 0 <= k < l < |idx| ensures idx[k] < idx[l] {
          assert idx[l] == idx'[l - 1];
          assert idx'[l - 1] in idx';
          if k > 0 {
            assert idx[k] == idx'[k - 1];
          }
        }
      } else {
        assert idx == idx';
      }
    }
  }

  /** The positions are exactly those of the true verdicts. */
  lemma {:induction false} PositionsExactly(keep: seq<bool>, base: nat)
    ensures forall j :: 0 <= j < |keep| ==> (keep[j] <==> base + j in Positions(keep, base))
  {
    if keep != [] {
      var idx, idx' := Positions(keep, base), Positions(keep[1..], base + 1);
      var head: seq<nat> := if keep[0] then [base] else [];
      assert idx == head + idx';
      PositionsInRange(keep[1..], base + 1);
      PositionsExactly(keep[1..], base + 1);
      forall j | 0 <= j < |keep| ensures keep[j] <==> base + j in idx {
        if j > 0 {
          assert keep[j] == keep[1..][j - 1];
          assert base + j !in head;
        }
      }
    }
  }

  /** The list the search box renders for `query`: everything for an empty
      query, otherwise the clips matching its lower-cased form, in order.
      The full list itself is left as it was. */
  function Search(all: seq<Clip>, query: string): (shown: seq<Clip>)
    ensures |shown| <= |all|
    ensures query == "" ==> shown == all
  {
    var q := Lower(query);
    if q == "" then all else Select(all, MatchMask(all, q))
  }

  /** For each card of `Search(all, query)`, the position of its clip in the full list. */
  function SearchOrigins(all: seq<Clip>, query: string): (origins: seq<nat>) {
    var q := Lower(query);
    if q == "" then seq(|all|, i => i) else Positions(MatchMask(all, q), 0)
  }

  /** The search keeps exactly the clips whose lower-cased domain or text
      contains the lower-cased query, in their list order. */
  lemma SearchSelectsExactly(all: seq<Clip>, query: string)
    ensures var shown, idx := Search(all, query), SearchOrigins(all, query);
      && |idx| == |shown|
      && (forall k :: 0 <= k < |idx| ==> idx[k] < |all| && shown[k] == all[idx[k]])
      && Ascending(idx)
      && (forall j :: 0 <= j < |all| ==> (Matches(all[j], Lower(query)) <==> j in idx))
  {
    var q := Lower(query);
    if q == "" {
      var idx := SearchOrigins(all, query);
      forall j | 0 <= j < |all| ensures Matches(all[j], q) && j in idx {
        ContainsEmpty(Lower(all[j].domain));
        assert idx[j] == j;
      }
    } else {
      SelectAtPositions(all, MatchMask(all, q), 0);
      PositionsAscend(MatchMask(all, q), 0);
      PositionsExactly(MatchMask(all, q), 0);
    }
  }

  /** Upper and lower case in the query make no difference. */
  lemma SearchIgnoresQueryCase(all: seq<Clip>, query: string)
    ensures Search(all, Lower(query)) == Search(all, query)
  {
    LowerIdempotent(query);
  }

  // ---------------------------------------------------------------------
  // Card numbering after a search
  // ---------------------------------------------------------------------

  /** Cards are numbered by their place in the rendered list, and the copy,
      edit and delete handlers index the FULL list with that number. As the
      rendered list is never longer than the full list, the number is
      always in range, so those handlers never fail on a card... */
  lemma CardIndexInBounds(all: seq<Clip>, query: string, k: nat)
    requires k < |Search(all, query)|
    ensures Copy(all, k).Some? && Edit(all, k, "").Some? && |Delete(all, k)| == |all| - 1
  {
  }

  /** ...but after a search they can act on a clip other than the one on
      the card: here card 0 shows the second clip, yet delete removes the
      first and keeps the one shown, and copy copies the first clip's text. */
  lemma CardIndexDrift()
    ensures var all := [Clip("a", "https://a/", "a", "", 0), Clip("b", "https://b/", "b", "", 0)];
      && Search(all, "b") == [all[1]]
      && Delete(all, 0) == [all[1]]
      && Copy(all, 0) == Some("a")
  {
    var all := [Clip("a", "https://a/", "a", "", 0), Clip("b", "https://b/", "b", "", 0)];
    assert Lower("a") == "a" && Lower("b") == "b";
    forall j ensures !OccursAt("a", "b", j) {
      if 0 <= j && j + 1 <= 1 { assert "a"[j..j + 1][0] == 'a'; }
    }
    assert !Contains("a", "b");
    assert Contains("b", "b");
    assert MatchMask(all, "b") == [false, true];
    assert Select(all, [false, true]) == [all[1]];
  }

  /** In the same situation (card 0 shows the second clip, by
      `CardIndexDrift`) an edit made on card 0 is written into the first
      clip, and the shown clip keeps its old text. */
  lemma CardIndexDriftEdit()
    ensures var all := [Clip("a", "https://a/", "a", "", 0), Clip("b", "https://b/", "b", "", 0)];
      Edit(all, 0, "b2") == Some([all[0].(text := "b2"), all[1]])
  {
    var all := [Clip("a", "https://a/", "a", "", 0), Clip("b", "https://b/", "b", "", 0)];
    var r := Edit(all, 0, "b2");
    assert r.Some? && |r.value| == 2 && r.value[0] == all[0].(text := "b2") && r.value[1] == all[1];
    assert r.value == [all[0].(text := "b2"), all[1]];
  }

  /** With no query the card number is the list position, so nothing drifts. */
  lemma NoDriftWithoutQuery(all: seq<Clip>, k: nat)
    requires k < |Search(all, "")|
    ensures Search(all, "")[k] == all[k]
  {
  }

  /** The list position of the clip on card `k`. */
  function CardTarget(all: seq<Clip>, query: string, k: nat): (i: nat)
    requires k < |Search(all, query)|
    ensures i < |all| && all[i] == Search(all, query)[k]
  {
    SearchSelectsExactly(all, query);
    SearchOrigins(all, query)[k]
  }

  /** Delete through the card's own clip: exactly the clip shown on card
      `k` leaves the list. */
  function DeleteCard(all: seq<Clip>, query: string, k: nat): (r: seq<Clip>)
    requires k < |Search(all, query)|
    ensures |r| == |all| - 1
    ensures multiset(r) + multiset{Search(all, query)[k]} == multiset(all)
  {
    Delete(all, CardTarget(all, query, k))
  }

  /** Edit through the card's own clip: the clip shown on card `k` gets the
      new text and keeps everything else. */
  function EditCard(all: seq<Clip>, query: string, k: nat, text: string): (r: seq<Clip>)
    requires k < |Search(all, query)|
    ensures |r| == |all|
    ensures exists i :: (0 <= i < |all| && all[i] == Search(all, query)[k]
      && r[i] == all[i].(text := text)
      && forall j :: 0 <= j < |all| && j != i ==> r[j] == all[j])
  {
    var i := CardTarget(all, query, k);
    Edit(all, i, text).value
  }

  /** Copy through the card's own clip: the clipboard gets the text on the card. */
  function CopyCard(all: seq<Clip>, query: string, k: nat): (r: string)
    requires k < |Search(all, query)|
    ensures r == Search(all, query)[k].text
  {
    Copy(all, CardTarget(all, query, k)).value
  }
}

=== FILE: text.dfy ===
/** The handful of JavaScript string operations the extension relies on:
    `toLowerCase`/`toUpperCase` (restricted to ASCII), `indexOf`/`includes`,
    `replace` with a string pattern, `trim`, and decimal rendering of a
    non-negative integer inside a template literal. */
module Text {
  import opened Wrappers

  // ---------------------------------------------------------------------
  // Case mapping (ASCII only)
  // ---------------------------------------------------------------------

  predicate IsUpperAscii(c: char) { 'A' <= c <= 'Z' }

  predicate IsLowerAscii(c: char) { 'a' <= c <= 'z' }

  function LowerChar(c: char): (r: char)
    ensures !IsUpperAscii(r)
  {
    if IsUpperAscii(c) then (c as int + 32) as char else c
  }

  function UpperChar(c: char): (r: char)
    ensures !IsLowerAscii(r)
  {
    if IsLowerAscii(c) then (c as int - 32) as char else c
  }

  /** `s.toLowerCase()` for ASCII letters; every other character is kept. */
  function Lower(s: string): (r: string)
    ensures |r| == |s|
    ensures forall i :: 0 <= i < |r| ==> r[i] == LowerChar(s[i])
  {
    seq(|s|, i requires 0 <= i < |s| => LowerChar(s[i]))
  }

  /** Lower-casing twice is lower-casing once, so a query that is already
      lower-cased is unchanged by a second `toLowerCase`. */
  lemma LowerIdempotent(s: string)
    ensures Lower(Lower(s)) == Lower(s)
  {
  }

  /** Upper- then lower-casing a character gives the same letter as lower-casing it. */
  lemma LowerOfUpper(c: char)
    ensures LowerChar(UpperChar(c)) == LowerChar(c)
  {
  }

  // ---------------------------------------------------------------------
  // indexOf / includes / replace
  // ---------------------------------------------------------------------

  /** `pat` occurs in `s` starting at position `i`. */
  predicate OccursAt(s: string, pat: string, i: int) {
    0 <= i && i + |pat| <= |s| && s[i..i + |pat|] == pat
  }

  /** `s.indexOf(pat)`: the first position at which `pat` occurs, or None
      where JavaScript returns -1. */
  function IndexOf(s: string, pat: string): (r: Option<nat>)
    ensures r.Some? ==> OccursAt(s, pat, r.value)
    ensures r.Some? ==> forall j :: 0 <= j < r.value ==> !OccursAt(s, pat, j)
    ensures r.None? ==> forall j :: !OccursAt(s, pat, j)
    decreases |s|
  {
    if |pat| > |s| then
      None
    else if s[..|pat|] == pat then
      Some(0)
    else
      ShiftedOccurrence(s, pat);
      match IndexOf(s[1..], pat)
      case None => None
      case Some(k) => Some(k + 1)
  }

  /** An occurrence at position j >= 1 of `s` is an occurrence at position
      j - 1 of `s[1..]`, and conversely. */
  lemma ShiftedOccurrence(s: string, pat: string)
    requires |s| > 0
    ensures forall j {:trigger OccursAt(s, pat, j)} :: 1 <= j ==>
      (OccursAt(s, pat, j) <==> OccursAt(s[1..], pat, j - 1))
  {
  }

  /** `s.includes(pat)`. */
  predicate Contains(s: string, pat: string) {
    IndexOf(s, pat).Some?
  }

  /** Every string contains the empty string, as `includes("")` is true. */
  lemma ContainsEmpty(s: string)
    ensures Contains(s, "")
  {
  }

  /** `s.replace(pat, rep)` with a string pattern: only the first occurrence
      of `pat` is replaced; with no occurrence `s` is returned as is. */
  function ReplaceFirst(s: string, pat: string, rep: string): (r: string)
    ensures (forall j :: !OccursAt(s, pat, j)) ==> r == s
    ensures forall i ::
      OccursAt(s, pat, i) && (forall j :: 0 <= j < i ==> !OccursAt(s, pat, j)) ==>
        r == s[..i] + rep + s[i + |pat|..]
  {
    match IndexOf(s, pat)
    case None => s
    case Some(i) =>
      assert forall k :: OccursAt(s, pat, k) && (forall j :: 0 <= j < k ==> !OccursAt(s, pat, j)) ==> k == i;
      s[..i] + rep + s[i + |pat|..]
  }

  /** The replacement at a known first occurrence. */
  lemma ReplaceFirstAt(s: string, pat: string, rep: string, i: nat)
    requires OccursAt(s, pat, i)
    requires forall j :: 0 <= j < i ==> !OccursAt(s, pat, j)
    ensures ReplaceFirst(s, pat, rep) == s[..i] + rep + s[i + |pat|..]
  {
  }

  // ---------------------------------------------------------------------
  // trim
  // ---------------------------------------------------------------------

  /** The characters `String.prototype.trim` removes: the ECMAScript
      WhiteSpace code points (tab, vertical tab, form feed, space, no-break
      space, byte-order mark and the Unicode space separators) and the
      LineTerminator code points. */
  predicate IsJsSpace(c: char) {
    c in {'\t', '\U{000B}', '\U{000C}', ' ', '\U{00A0}', '\U{FEFF}',
          '\U{1680}', '\U{2000}', '\U{2001}', '\U{2002}', '\U{2003}', '\U{2004}',
          '\U{2005}', '\U{2006}', '\U{2007}', '\U{2008}', '\U{2009}', '\U{200A}',
          '\U{202F}', '\U{205F}', '\U{3000}',
          '\n', '\r', '\U{2028}', '\U{2029}'}
  }

  predicate AllSpace(s: string) {
    forall i :: 0 <= i < |s| ==> IsJsSpace(s[i])
  }

  /** The first position at or after `i` that is not white space (or |s|). */
  function SkipLeading(s: string, i: nat): (k: nat)
    requires i <= |s|
    ensures i <= k <= |s|
    ensures forall j :: i <= j < k ==> IsJsSpace(s[j])
    ensures k < |s| ==> !IsJsSpace(s[k])
    decreases |s| - i
  {
    if i < |s| && IsJsSpace(s[i]) then SkipLeading(s, i + 1) else i
  }

  /** The end of the text in `s[lo..hi]` once trailing white space is cut off. */
  function SkipTrailing(s: string, lo: nat, hi: nat): (k: nat)
    requires lo <= hi <= |s|
    ensures lo <= k <= hi
    ensures forall j :: k <= j < hi ==> IsJsSpace(s[j])
    ensures k > lo ==> !IsJsSpace(s[k - 1])
    decreases hi
  {
    if hi > lo && IsJsSpace(s[hi - 1]) then SkipTrailing(s, lo, hi - 1) else hi
  }

  /** `r` sits at position `i` of `s` and only white space surrounds it. */
  predicate SpaceAround(s: string, i: int, r: string) {
    && 0 <= i <= |s| - |r| && r == s[i..i + |r|]
    && (forall j :: 0 <= j < i ==> IsJsSpace(s[j]))
    && (forall j :: i + |r| <= j < |s| ==> IsJsSpace(s[j]))
  }

  /** `s.trim()`: the longest infix of `s` that neither starts nor ends with
      white space; everything cut off on either side is white space. */
  function Trim(s: string): (r: string)
    ensures r != [] ==> !IsJsSpace(r[0]) && !IsJsSpace(r[|r| - 1])
    ensures r == [] <==> AllSpace(s)
    ensures exists i :: SpaceAround(s, i, r)
  {
    var i := SkipLeading(s, 0);
    var k := SkipTrailing(s, i, |s|);
    assert k == i ==> AllSpace(s);
    assert SpaceAround(s, i, s[i..k]);
    s[i..k]
  }

  /** Trimming an already trimmed string changes nothing. */
  lemma TrimIdempotent(s: string)
    ensures Trim(Trim(s)) == Trim(s)
  {
  }

  // ---------------------------------------------------------------------
  // Decimal rendering of a natural number (`${n}` in a template literal)
  // ---------------------------------------------------------------------

  predicate IsDigit(c: char) { '0' <= c <= '9' }

  predicate AllDigits(s: string) {
    forall i :: 0 <= i < |s| ==> IsDigit(s[i])
  }

  function DigitChar(d: nat): (c: char)
    requires d < 10
    ensures IsDigit(c)
  {
    ('0' as int + d) as char
  }

  /** The shortest decimal numeral of `n`: digits only, never empty, and no
      leading zero unless `n` is 0. */
  function Decimal(n: nat): (r: string)
    ensures |r| >= 1 && AllDigits(r)
    ensures |r| > 1 ==> r[0] != '0'
  {
    if n < 10 then [DigitChar(n)] else Decimal(n / 10) + [DigitChar(n % 10)]
  }

  /** The number a string of decimal digits denotes. */
  function DecimalValue(s: string): (n: nat)
    requires AllDigits(s)
  {
    if s == [] then 0
    else DecimalValue(s[..|s| - 1]) * 10 + (s[|s| - 1] as int - '0' as int)
  }

  /** Reading back the numeral gives the number it was rendered from. */
  lemma {:induction false} DecimalRoundTrip(n: nat)
    ensures DecimalValue(Decimal(n)) == n
  {
    if n >= 10 {
      var r := Decimal(n);
      assert r[..|r| - 1] == Decimal(n / 10);
      DecimalRoundTrip(n / 10);
    }
  }

  /** Different numbers have different numerals. */
  lemma DecimalInjective(m: nat, n: nat)
    requires Decimal(m) == Decimal(n)
    ensures m == n
  {
    DecimalRoundTrip(m);
    DecimalRoundTrip(n);
  }
}

=== FILE: wrappers.dfy ===
/** The Some/None datatype used wherever the extension's JavaScript either
    produces a value or fails (a URL that does not parse, an index past the
    end of the list, a lookup that throws). */
module Wrappers {

  datatype Option<+T> = None | Some(value: T)
}
